=== FILE: README.md ===
# Obsidian easy-sync: the synchronization engine as pure state transitions

This project models the synchronization engine of the Obsidian "Mongo Sync"
plugin (`main.ts`). The engine keeps a local vault of text files in step with
a remote collection of document records. It works with three pieces of
information: a wall-clock timestamp on each side, a cheap content fingerprint
(sum of UTF-16 code units modulo 256), and a soft-delete flag on each record.

The model is functional. The remote store is a sequence of records in the
collection's natural order, and a lookup by path (`findOne`) returns the
first record with that path. The local tree is a map from path to body and
modification time. Every operation is a pure function from one `Session`
(both stores, the `validUri` flag and the `initialLoadComplete` latch) to the
next:

- `Text`: code units, the fingerprint `StringChecksum` and the
  accumulation loop `ComputeChecksum`.
- `Payload`: the compression codec. It is an abstract pair of transforms
  with one law, `RoundTrips`: `decode(encode(s)) == s`.
- `Store`: the record and file types, the session, and `findOne`. It also
  defines three predicates about the store:
  - `IdsAreIndices`: ids follow insertion order. Every operation keeps it.
  - `UniquePaths`: no two records share a path. The program does not keep
    it: renaming onto a path that already has a record breaks it. Lemmas
    use it only as a hypothesis.
  - `ChecksumsAgree`: each stored fingerprint is that of the stored body.
    The program does not keep it either: the local-wins update leaves a
    stale fingerprint (see Findings). Lemmas use it only as a hypothesis.
- `Reconcile`: the per-file step of a sweep, with its decisions:
  - upload when there is no record;
  - delete locally when the record is a tombstone;
  - do nothing when the fingerprints or the timestamps agree;
  - pull when the remote side is newer;
  - push when the local side is newer.
- `Sweep`: `triggerSync`. It captures the candidate list first, then pulls
  orphaned records, then reconciles each candidate, then sets the latch.
- `Events`: the `rename`, `delete` and `create` handlers.

Clock readings are parameters. A sweep reads one `now`, and so does the
`create` handler. The host's two file listings (all files, and markdown files
only) are also parameters.

Facts the model reproduces from the code:

- A record inserted by a sweep has no `deleted` field (`None`).
- The orphan query `{deleted: false}` returns only records whose flag is
  explicitly `false`. Such records arise only from a revival by `create`.
  So a file that one device creates and uploads is never pulled by a peer
  that lacks it: the sweep's insert carries no `deleted` flag
  (`Sweep.NewFileNeverPulled`, see Findings).
- `findOne` does not skip tombstones. Renaming a live record onto a path
  whose earlier record is a tombstone therefore makes the next sweep delete
  that file locally (`Events.RenameOntoTombstoneDeletesFile`).
- `findOne` returns tombstones, but the orphan query returns only live
  records. The handlers can put a tombstone and a revived record at one
  path, starting from a store with unique paths. On a peer without that
  file, the model's sweeps then cycle: one pulls the file, the next deletes
  it (`Events.DuplicatePathFlicker`). The model does not chain in the
  `create` event that the pull's file creation raises. The program does
  chain it: once the first sweep has completed, the `create` handler finds
  the tombstone first and revives it with an empty body. In the reachable
  instance the pulled file is empty too, so the next sweep writes nothing
  and there is no cycle (`Events.PullCreateEventStopsFlicker`).
- The local-wins update sends the fingerprint under the key `checksum`, not
  `checkSum`. The stored fingerprint therefore keeps its old value. The
  mis-keyed value lands in a field that nothing reads, and the model omits
  it.
- An absent stored fingerprint never equals a computed one. Equal timestamps
  with differing fingerprints cause no write on either side.
- Files pulled in a sweep are not candidates of that same sweep, because the
  candidate list is captured before the pull.

Behaviour of the code a reader may not expect:

- The code lists the candidates (main.ts:144) before it pulls orphans
  (main.ts:152), not after.
- `triggerSync` never consults or sets a "syncing" flag. `syncInProgress` is
  declared but never assigned, so there is no mutual exclusion to model.
- The local-wins branch does not refresh the fingerprint, because of the key
  misspelling (see Findings).
- `rename` renames whatever record `findOne` returns, tombstones included.
- The sweep has no per-item error handling. A throw would abort the whole
  sweep before the latch is set. The model has no failure paths (see Left
  out).

## Model

| member | source | states |
|---|---|---|
| Text.StringChecksum | main.ts:122-130 | the fingerprint lies in [0, 256) and is 0 for the empty string |
| Text.ComputeChecksum | main.ts:122-130 | the accumulation loop returns the sum of all UTF-16 code units modulo 256 |
| Text.ChecksumAppend | main.ts:122-130 | the fingerprint of a concatenation is the sum of the parts' fingerprints modulo 256 |
| Text.ChecksumIgnoresOrder | main.ts:122-130 | swapping two halves of a body is invisible to the fingerprint (a collision) |
| Text.ChecksumBlindToMultiplesOf256 | main.ts:122-130 | appending a code unit that is a multiple of 256 changes the body but not the fingerprint |
| Store.FindOne | main.ts:163 | the lookup returns the first record carrying the path, or none when no record carries it; tombstones are not skipped |
| Reconcile.Decide | main.ts:183-205 | the decision ladder: no record means upload; a tombstone wins before any comparison; nothing is written exactly when the record is live and its fingerprint or timestamp matches; an absent stored fingerprint never matches, so with differing timestamps a write follows; a pull only for a newer remote and a push only for a newer local file |
| Reconcile.NewDoc | main.ts:170-178 | the inserted record carries the path, agrees with the file it came from, has no `deleted` field (so the orphan query never returns it), and under the round-trip law its fingerprint matches its decoded body |
| Reconcile.Pushed | main.ts:192-201 | the local-wins update replaces body and `lastEdited` and keeps `checkSum`, id, path and `deleted` |
| Reconcile.ReconcileFile | main.ts:163-208 | the five outcomes. No record: exactly one record is inserted (encoded body, fingerprint, `now`, no `deleted` field) and the local tree is unchanged. Tombstone: the local file is removed and the remote is unchanged. Fingerprint or timestamp agree: nothing changes. Remote newer: the local file takes the decoded body and the remote timestamp. Local newer: only the found record's body and `lastEdited` change. No other file or record is touched |
| Reconcile.ReconcileSettles | main.ts:180-205 | after every outcome the path is gone locally or its record is live and agrees with the file |
| Reconcile.ReconcileIdempotent | main.ts:188-201 | a second reconciliation of the same file writes nothing; after a push `lastEdited == mtime` stops further writes |
| Reconcile.ReconcileKeepsOthersSettled | main.ts:160-220 | reconciling one candidate does not unsettle any other path |
| Reconcile.UndetectedEdit | main.ts:187 | an edit that the fingerprint cannot see is never uploaded |
| Reconcile.PushIntended | main.ts:199 | the corrected local-wins update stores the fingerprint of the uploaded body, which then agrees with the decoded body |
| Reconcile.StaleChecksumHidesUpdate | main.ts:192-201 | as written, a peer still holding the body the stale fingerprint describes never receives the newer upload, and the stored fingerprint no longer matches the stored body |
| Reconcile.IntendedPushPropagates | main.ts:199 | with the corrected update, the older peer's next reconciliation pulls the uploaded body and timestamp exactly |
| Reconcile.IntendedPushKeepsChecksumsAgree | main.ts:199 | the corrected update keeps every stored fingerprint faithful to its body |
| Sweep.FirstSweepSettlesEveryFile | main.ts:144-222 | before the latch is set every file is a candidate, so a first sweep given the full listing settles every file that existed when it started; with unique paths every file of the resulting tree is settled |
| Sweep.LaterSweepsListMarkdown | main.ts:144-222 | once a sweep has run, the latch is set, so every later sweep's candidates are the markdown listing, whatever the full listing holds |
| Sweep.PullFrom | main.ts:154-158 | walking the query results in order: existing files are kept, every returned record's path ends up present, and each new file comes from the first returned record with its path |
| Sweep.PullOrphans | main.ts:152-158 | only records with `deleted` explicitly false whose path is absent locally create files. Each file holds the decoded body and has mtime equal to `lastEdited`. Existing files are never touched |
| Sweep.ReconcileAll | main.ts:160-220 | reconciling the candidates in turn only touches candidate files and records at candidate paths, never adds local files, never changes a record's id, path or `deleted`, and every new record is an insert at a candidate path |
| Sweep.TriggerSync | main.ts:132-226 | a rejected URI makes the sweep a no-op. Otherwise the latch is set and never cleared. Non-candidate files and records keep their values. Every new file was pulled from a record of the orphan query and is not re-examined |
| Sweep.ReconcileAllSettles | main.ts:160-220 | after the per-file loop every candidate is settled, and paths settled before stay settled |
| Sweep.ReconcileAllSettledIsNoop | main.ts:183-205 | a loop over settled candidates writes nothing |
| Sweep.ReconcileAllKeepsOrphansPresent | main.ts:152-208 | with unique paths, the loop never deletes a file that the orphan query would recreate |
| Sweep.PulledFilesSettled | main.ts:155-156 | with unique paths, a pulled file is settled at once because its mtime is the record's `lastEdited` |
| Sweep.NewFileNeverPulled | main.ts:152-158 | as written, after a sweep inserts a record for a new file, a peer without that file does not pull it, because the insert has no `deleted` flag and the query matches only an explicit `false` |
| Sweep.PullLive | main.ts:152 | the corrected pull, with the query "not a tombstone": existing files are kept, every live record's path (a missing flag counts as live) ends up present, and each new file holds the decoded body and timestamp of a live record at its path |
| Sweep.NewFileIntendedPulled | main.ts:152-158 | with the corrected query, the peer pulls the newly uploaded file, and under the round-trip law receives exactly the uploaded body stamped with the upload time |
| Sweep.PullOrphansNoop | main.ts:152-158 | the pull writes nothing when every returned record already has a local file |
| Sweep.SweepPreservesShape | main.ts:132-226 | a sweep keeps ids in insertion order and paths unique, and leaves every orphan-query record with a local file |
| Sweep.SweepIdempotent | main.ts:132-226 | with unique paths, a second sweep right after the first writes nothing on either side |
| Events.OnRename | main.ts:232-250 | only the path of the record found at the old path changes; no-op without a valid URI or a record |
| Events.OnDelete | main.ts:252-274 | only the `deleted` flag of the found record changes, to true; no-op without a valid URI or a record |
| Events.OnCreate | main.ts:276-304 | after the first sweep, a tombstone found at the path gets `deleted = false`, the encoded empty body, fingerprint 0 and `now`; a live record, a missing record, a rejected URI or an unset latch leave everything unchanged |
| Events.RenameRoundTrip | main.ts:232-250 | renaming to an unused path and back restores the store |
| Events.RenamePreservesShape | main.ts:232-250 | renaming to an unused path keeps paths unique |
| Events.RenameOntoTombstoneDeletesFile | main.ts:232-250 | renaming a live record onto a path whose first record is a tombstone makes the next sweep delete that file locally |
| Events.DeleteIdempotent | main.ts:252-274 | deleting twice equals deleting once |
| Events.DeletePropagates | main.ts:260-265 | a peer holding the file deletes it on its next sweep without a remote write, and the tombstone is never pulled |
| Events.CreateIdempotent | main.ts:284-296 | a second create after a revival changes nothing |
| Events.DeleteThenCreateRevivesEmpty | main.ts:276-304 | delete then create revives the record with an empty body and a correct fingerprint, and a peer without the file pulls it as an empty file stamped `now` |
| Events.DuplicatePathFlicker | main.ts:152-163 | from a store with unique paths, the handlers reach a tombstone and a revived record at one path. With the pull's own `create` event left out, a peer without the file cycles: one sweep pulls it (the orphan query returns the live record), the next deletes it (`findOne` returns the tombstone first), and the peer is back at the start |
| Events.PullCreateEventStopsFlicker | main.ts:276-304 | in the same state, with the `create` event raised by the pull chained after it, the handler revives the tombstone (`findOne` returns it first) with an empty body and fingerprint 0; the pulled file is empty, so the next sweep leaves the session unchanged |
| Events.HandlersKeepChecksumsAgree | main.ts:232-304 | no handler makes a stored fingerprint disagree with its body |

## Left out

- MongoDB and Papr connection, schema setup and `onunload` (main.ts:85-115, 363-365): network I/O and foreign library calls. The collection is the `Remote` sequence.
- URI validation (main.ts:76): a library regular expression. `validUri` is an input flag of the session.
- Ribbon icon, status-bar text, notices, settings tab, `SampleModal` and the click logger: user interface only.
- The startup delay and the 30-second interval (main.ts:228-230, 358-360): timers. `TriggerSync` is the operation they invoke.
- Asynchronous interleaving: vault writes that are not awaited, and handlers running during a sweep. Every local write takes effect at once, and operations do not interleave.
- Events that the engine's own writes raise (a `create` for a pulled file, a `delete` for a propagated tombstone): the host delivers them asynchronously. They are not chained into the sweep.
- Failures: decompression errors, store errors and vault errors are not modelled. The codec is total. In the code, a throw inside a sweep aborts it before the latch is set, and handler errors are swallowed.
- LZUTF8 internals: the codec keeps only the round-trip law.
- How the host lists files (`getFiles`, `getMarkdownFiles`): both lists are parameters. The one the latch selects must consist of distinct paths of existing files, as the host guarantees.
- Clock readings within one sweep: each insert calls `new Date()`. The model gives every insert of one sweep the same `now`.
- Record ids: the store's `ObjectId`s are modelled as insertion ordinals (`IdsAreIndices`). An update by `_id` is then an update at that index.
- The mis-keyed `checksum` field written by the local-wins update: nothing reads it, so the record type does not carry it.
- Sweep.SweepIdempotent: assumes `UniquePaths`. Renaming onto a path that already has a record breaks it, and then two sweeps in a row need not agree (`Events.DuplicatePathFlicker`, where the pull's `create` event is left out).
- Sweep.SweepPreservesShape: assumes `UniquePaths` on entry. A sweep keeps it, but rename can break it between sweeps.
- Sweep.PulledFilesSettled: assumes `UniquePaths`. Rename can break it, and a pulled file can then be shadowed by an earlier tombstone at its path.
- Sweep.ReconcileAllKeepsOrphansPresent: assumes `UniquePaths`. Rename can break it, and the loop can then delete a file that the orphan query recreates.
- Events.DeleteThenCreateRevivesEmpty: assumes `UniquePaths`. Rename can break it, and a peer may then pull a different record at the path.
- Unpaired surrogates: `Text` admits code units 0xD800-0xDFFF on their own, which the real codec's UTF-8 step cannot round-trip. The round-trip law is assumed for them too. Files read from the vault are decoded from UTF-8 and never contain them.
- JavaScript number precision: the fingerprint sum stays far below 2^53 for any string, so unbounded integers are exact.

## Findings

| source | as written | input that shows it | evidently intended | confidence | as-written member | corrected member |
|---|---|---|---|---|---|---|
| main.ts:199 | the local-wins update writes the fingerprint under the key `checksum`, so the record's `checkSum` keeps the old body's fingerprint | record holds body X1 with `checkSum = fp(X1)`; device A edits to X2 with `fp(X2) != fp(X1)` and a newer mtime and pushes; device B still holds X1 with an older mtime; B's sweep sees `checkSum == fp(X1)`, reports in sync, and never pulls X2 | write `checkSum`, so that the stored fingerprint describes the stored body | not executed; high | Reconcile.StaleChecksumHidesUpdate | Reconcile.PushIntended |
| main.ts:152 | the pull queries `{deleted: false}`, which matches only records whose flag is present and false; the sweep's insert (main.ts:170-178) writes no flag | device A creates file F and its sweep inserts a record for F with no `deleted` field; device B, which never had F, runs a sweep: the query does not return F's record, B's candidates do not include F, and no sweep of B creates F while its record carries no flag | pull every record that is not a tombstone (`deleted` not `true`), so new files reach every peer | not executed; high | Sweep.NewFileNeverPulled | Sweep.PullLive |

The sweep model keeps the as-written update (`Reconcile.Pushed`), because it
describes what the program does. `Reconcile.PushIntended` is the corrected
update. `Reconcile.IntendedPushPropagates` and
`Reconcile.IntendedPushKeepsChecksumsAgree` prove the intended behaviour
about it.

Likewise the sweep keeps the as-written query (`Sweep.PullOrphans`).
`Sweep.PullLive` is the corrected pull, and `Sweep.NewFileIntendedPulled`
proves that it delivers a newly uploaded file to a peer.

=== FILE: events.dfy ===
/**
 * The three vault event handlers. Each reacts to a change the host has
 * already made to the local tree, so each only writes to the remote store,
 * and each does nothing when the connection string was rejected.
 */
module Events {
  import opened Wrappers
  import opened Text
  import opened Payload
  import opened Store
  import opened Reconcile
  import opened Sweep

  /** The record a handler modifies, replaced by `d`. */
  function Replace(s: Session, i: nat, d: Doc): Session
    requires i < |s.remote|
  {
    s.(remote := s.remote[i := d])
  }

  /** `rename`: the record found at `oldPath` takes the new path; nothing
      else about it changes. A tombstone is renamed like any other record. */
  function OnRename(s: Session, oldPath: Path, newPath: Path): (r: Session)
    ensures r.local == s.local && r.validUri == s.validUri
    ensures r.initialLoadComplete == s.initialLoadComplete
    ensures |r.remote| == |s.remote|
    ensures !s.validUri || FindOne(s.remote, oldPath).None? ==> r == s
    ensures s.validUri && FindOne(s.remote, oldPath).Some? ==>
      var i := FindOne(s.remote, oldPath).value;
      && r.remote[i] == s.remote[i].(path := newPath)
      && forall j :: 0 <= j < |s.remote| && j != i ==> r.remote[j] == s.remote[j]
  {
    if !s.validUri then s
    else match FindOne(s.remote, oldPath)
      case None => s
      case Some(i) => Replace(s, i, s.remote[i].(path := newPath))
  }

  /** `delete`: the record found at the path becomes a tombstone; its body,
      fingerprint and timestamp are kept. */
  function OnDelete(s: Session, p: Path): (r: Session)
    ensures r.local == s.local && r.validUri == s.validUri
    ensures r.initialLoadComplete == s.initialLoadComplete
    ensures |r.remote| == |s.remote|
    ensures !s.validUri || FindOne(s.remote, p).None? ==> r == s
    ensures s.validUri && FindOne(s.remote, p).Some? ==>
      var i := FindOne(s.remote, p).value;
      && r.remote[i] == s.remote[i].(deleted := Some(true))
      && IsTombstone(r.remote[i])
      && forall j :: 0 <= j < |s.remote| && j != i ==> r.remote[j] == s.remote[j]
  {
    if !s.validUri then s
    else match FindOne(s.remote, p)
      case None => s
      case Some(i) => Replace(s, i, s.remote[i].(deleted := Some(true)))
  }

  /** `create`: once the first sweep has completed, a tombstone found at the
      path is revived with an empty body, the empty body's fingerprint and
      the current time. A live record, or no record, is left alone. */
  function OnCreate(c: Codec, s: Session, p: Path, now: Time): (r: Session)
    ensures r.local == s.local && r.validUri == s.validUri
    ensures r.initialLoadComplete == s.initialLoadComplete
    ensures |r.remote| == |s.remote|
    ensures !s.validUri || !s.initialLoadComplete || FindOne(s.remote, p).None? ==> r == s
    ensures FindOne(s.remote, p).Some? && !IsTombstone(s.remote[FindOne(s.remote, p).value]) ==> r == s
    ensures s.validUri && s.initialLoadComplete && FindOne(s.remote, p).Some? ==>
      var i := FindOne(s.remote, p).value;
      IsTombstone(s.remote[i]) ==>
        && r.remote[i] == s.remote[i].(deleted := Some(false), checkSum := Some(0),
                                       compressedContent := c.encode([]), lastEdited := now)
        && forall j :: 0 <= j < |s.remote| && j != i ==> r.remote[j] == s.remote[j]
  {
    if !(s.validUri && s.initialLoadComplete) then s
    else match FindOne(s.remote, p)
      case None => s
      case Some(i) =>
        var d := s.remote[i];
        if IsTombstone(d) then
          Replace(s, i, d.(deleted := Some(false), checkSum := Some(StringChecksum([])),
                           compressedContent := c.encode([]), lastEdited := now))
        else s
  }

  /** Renaming to an unused path and back restores the store. */
  lemma RenameRoundTrip(s: Session, a: Path, b: Path)
    requires forall j :: 0 <= j < |s.remote| ==> s.remote[j].path != b
    ensures OnRename(OnRename(s, a, b), b, a) == s
  {
    var r := OnRename(s, a, b);
    if s.validUri && FindOne(s.remote, a).Some? {
      var i := FindOne(s.remote, a).value;
      assert r.remote[i].path == b;
      assert forall j :: 0 <= j < |r.remote| && j != i ==> r.remote[j].path != b;
      assert FindOne(r.remote, b) == Some(i);
      assert r.remote[i := r.remote[i].(path := a)] == s.remote;
    }
  }

  /** Renaming to an unused path keeps paths unique and ids in order. */
  lemma RenamePreservesShape(s: Session, a: Path, b: Path)
    requires UniquePaths(s.remote) && IdsAreIndices(s.remote)
    requires forall j :: 0 <= j < |s.remote| ==> s.remote[j].path != b
    ensures UniquePaths(OnRename(s, a, b).remote) && IdsAreIndices(OnRename(s, a, b).remote)
  {
  }

  /** Renaming a live record onto a path that already holds a tombstone at an
      earlier position: the lookup keeps finding the tombstone, so the next
      sweep deletes the renamed file locally although its record is live. */
  lemma RenameOntoTombstoneDeletesFile(c: Codec, s: Session, a: Path, b: Path, t: nat, now: Time)
    requires s.validUri && b in s.local
    requires FindOne(s.remote, b) == Some(t) && IsTombstone(s.remote[t])
    requires FindOne(s.remote, a).Some? && t < FindOne(s.remote, a).value
    requires !IsTombstone(s.remote[FindOne(s.remote, a).value])
    ensures var r := OnRename(s, a, b);
      var i := FindOne(s.remote, a).value;
      && r.remote[i].path == b && !IsTombstone(r.remote[i])
      && ReconcileFile(c, r, b, now).local == s.local - {b}
  {
    var r := OnRename(s, a, b);
    var i := FindOne(s.remote, a).value;
    assert r.remote[t] == s.remote[t];
    assert forall j :: 0 <= j < t ==> r.remote[j] == s.remote[j];
    assert FindOne(r.remote, b) == Some(t);
  }

  /** Deleting twice is deleting once. */
  lemma DeleteIdempotent(s: Session, p: Path)
    ensures OnDelete(OnDelete(s, p), p) == OnDelete(s, p)
  {
    if s.validUri && FindOne(s.remote, p).Some? {
      var i := FindOne(s.remote, p).value;
      FindOneReplace(s.remote, i, s.remote[i].(deleted := Some(true)), p);
    }
  }

  /** A deletion reaches every peer: a peer that still has the file removes
      it on its next sweep and writes nothing remotely, and the tombstone is
      never returned by the orphan query. */
  lemma DeletePropagates(c: Codec, s: Session, peer: Local, p: Path, now: Time)
    requires s.validUri && FindOne(s.remote, p).Some?
    requires p in peer
    ensures var r := OnDelete(s, p);
      var ps := Session(r.remote, peer, true, true);
      && !IsOrphanCandidate(r.remote[FindOne(s.remote, p).value])
      && ReconcileFile(c, ps, p, now) == ps.(local := peer - {p})
  {
    var i := FindOne(s.remote, p).value;
    FindOneReplace(s.remote, i, s.remote[i].(deleted := Some(true)), p);
  }

  /** Creating twice is creating once: the first call revives, the second
      finds a live record. */
  lemma CreateIdempotent(c: Codec, s: Session, p: Path, now: Time, later: Time)
    ensures OnCreate(c, OnCreate(c, s, p, now), p, later) == OnCreate(c, s, p, now)
  {
    var r := OnCreate(c, s, p, now);
    if s.validUri && s.initialLoadComplete && FindOne(s.remote, p).Some? {
      var i := FindOne(s.remote, p).value;
      FindOneReplace(s.remote, i, r.remote[i], p);
    }
  }

  /** Delete then create, after the first sweep: the record is live again
      with an empty body whose stored fingerprint is right, and a peer
      without the file pulls it as an empty file stamped `now`. */
  lemma DeleteThenCreateRevivesEmpty(c: Codec, s: Session, p: Path, now: Time, peer: Local)
    requires RoundTrips(c)
    requires s.validUri && s.initialLoadComplete
    requires UniquePaths(s.remote) && FindOne(s.remote, p).Some?
    requires p !in peer
    ensures var r := OnCreate(c, OnDelete(s, p), p, now);
      var i := FindOne(s.remote, p).value;
      && IsOrphanCandidate(r.remote[i])
      && c.decode(r.remote[i].compressedContent) == []
      && r.remote[i].checkSum == Some(StringChecksum([]))
      && var pulled := PullOrphans(c, r.remote, peer);
         p in pulled && pulled[p] == LocalFile([], now)
  {
    var i := FindOne(s.remote, p).value;
    var d := OnDelete(s, p);
    FindOneReplace(s.remote, i, d.remote[i], p);
    var r := OnCreate(c, d, p, now);
    assert UniquePaths(r.remote);
    var pulled := PullOrphans(c, r.remote, peer);
    assert r.remote[i].path == p;
    var j: nat :| FirstOrphanAt(r.remote, 0, j, p) && pulled[p] == Pulled(c, r.remote[j]);
    FindOneUnique(r.remote, j);
    FindOneUnique(r.remote, i);
  }

  /** The handlers never make a stored fingerprint disagree with its body. */
  lemma HandlersKeepChecksumsAgree(c: Codec, s: Session, a: Path, b: Path, p: Path, now: Time)
    requires RoundTrips(c) && ChecksumsAgree(c, s.remote)
    ensures ChecksumsAgree(c, OnRename(s, a, b).remote)
    ensures ChecksumsAgree(c, OnDelete(s, p).remote)
    ensures ChecksumsAgree(c, OnCreate(c, s, p, now).remote)
  {
    assert c.decode(c.encode([])) == [];
  }

  /** The handlers can make two records share a path: from a store with
      unique paths, deleting `q`, deleting and re-creating `r`, then renaming
      `r` to `q` leaves a tombstone and a revived record both at `q`. The
      orphan query returns the revived record while `findOne` returns the
      tombstone. In this model, where the `create` event raised by the pull's
      own file creation is not chained in, the sweeps of a peer without `q`
      cycle: one pulls `q`, the next deletes it, and the state is back where
      it started. */
  lemma DuplicatePathFlicker(c: Codec, t: Time, now: Time)
    ensures var q, r := "q.md", "r.md";
      var s0 := Session([Doc(0, q, "a", None, 0, None), Doc(1, r, "b", None, 0, None)],
                        map[q := LocalFile([], 0), r := LocalFile([], 0)], true, true);
      var s' := OnRename(OnCreate(c, OnDelete(OnDelete(s0, q), r), r, t), r, q);
      var peer := Session(s'.remote, map[], true, true);
      var s1 := peer.(local := map[q := Pulled(c, s'.remote[1])]);
      && UniquePaths(s0.remote)
      && s'.remote[0].path == q && IsTombstone(s'.remote[0])
      && s'.remote[1].path == q && IsOrphanCandidate(s'.remote[1])
      && s'.remote == [Doc(0, q, "a", None, 0, Some(true)),
                       Doc(1, q, c.encode([]), Some(0), t, Some(false))]
      && TriggerSync(c, peer, [], [], now) == s1
      && TriggerSync(c, s1, [q], [q], now) == peer
  {
    var q, r := "q.md", "r.md";
    assert q[0] != r[0];
    var s0 := Session([Doc(0, q, "a", None, 0, None), Doc(1, r, "b", None, 0, None)],
                      map[q := LocalFile([], 0), r := LocalFile([], 0)], true, true);
    assert FindOne(s0.remote, q) == Some(0);
    var a := OnDelete(s0, q);
    assert a.remote[1] == s0.remote[1];
    assert FindOne(a.remote, r) == Some(1);
    var b := OnDelete(a, r);
    assert b.remote[0] == a.remote[0];
    assert FindOne(b.remote, r) == Some(1);
    var d := OnCreate(c, b, r, t);
    assert d.remote[0] == b.remote[0];
    assert FindOne(d.remote, r) == Some(1);
    var s' := OnRename(d, r, q);
    var remote := s'.remote;
    assert remote[0] == d.remote[0];
    assert remote[0].path == q && IsTombstone(remote[0]);
    assert remote[1].path == q && IsOrphanCandidate(remote[1]);
    assert FindOne(remote, q) == Some(0);
    assert remote == [Doc(0, q, "a", None, 0, Some(true)),
                      Doc(1, q, c.encode([]), Some(0), t, Some(false))];

    // a sweep with nothing listed locally pulls the orphan query's record
    var peer := Session(remote, map[], true, true);
    var pulled := PullOrphans(c, remote, map[]);
    assert q in pulled;
    forall p | p in pulled
      ensures p == q && pulled[p] == Pulled(c, remote[1])
    {
      var j: nat :| FirstOrphanAt(remote, 0, j, p) && pulled[p] == Pulled(c, remote[j]);
      assert j == 1;
    }
    assert pulled == map[q := Pulled(c, remote[1])];
    var s1 := peer.(local := pulled);
    assert TriggerSync(c, peer, [], [], now) == s1;

    // the next sweep lists `q`, and the lookup finds the tombstone first
    assert OrphansPresent(s1);
    PullOrphansNoop(c, s1);
    assert ReconcileFile(c, s1, q, now).local == map[];
    assert TriggerSync(c, s1, [q], [q], now) == ReconcileAll(c, s1, [q], now).(initialLoadComplete := true);
  }

  /** In the program the pull's file creation raises the vault's `create`
      event. Once the first sweep has completed, its handler looks the path
      up, finds the tombstone first and revives it with an empty body. The
      pulled file is empty too, so the following sweep writes nothing and
      the cycle of `DuplicatePathFlicker` does not occur. */
  lemma PullCreateEventStopsFlicker(c: Codec, t: Time, t2: Time, now: Time)
    requires RoundTrips(c)
    ensures var q, r := "q.md", "r.md";
      var s0 := Session([Doc(0, q, "a", None, 0, None), Doc(1, r, "b", None, 0, None)],
                        map[q := LocalFile([], 0), r := LocalFile([], 0)], true, true);
      var s' := OnRename(OnCreate(c, OnDelete(OnDelete(s0, q), r), r, t), r, q);
      var peer := Session(s'.remote, map[], true, true);
      var s1 := TriggerSync(c, peer, [], [], now);
      var s1e := OnCreate(c, s1, q, t2);
      && s1.local == map[q := LocalFile([], t)]
      && s1e.remote == [Doc(0, q, c.encode([]), Some(0), t2, Some(false)),
                        Doc(1, q, c.encode([]), Some(0), t, Some(false))]
      && s1e.local == s1.local
      && TriggerSync(c, s1e, [q], [q], now) == s1e
  {
    var q, r := "q.md", "r.md";
    DuplicatePathFlicker(c, t, now);
    var remote := [Doc(0, q, "a", None, 0, Some(true)), Doc(1, q, c.encode([]), Some(0), t, Some(false))];
    var s1 := Session(remote, map[q := LocalFile([], t)], true, true);
    assert FindOne(remote, q) == Some(0);
    var s1e := OnCreate(c, s1, q, t2);
    assert s1e.remote[0] == Doc(0, q, c.encode([]), Some(0), t2, Some(false));
    assert s1e.remote[1] == remote[1];
    assert FindOne(s1e.remote, q) == Some(0);
    assert Agrees(s1e.remote[0], s1e.local[q]);
    assert OrphansPresent(s1e);
    PullOrphansNoop(c, s1e);
    assert ReconcileFile(c, s1e, q, now) == s1e;
    assert TriggerSync(c, s1e, [q], [q], now) == ReconcileAll(c, s1e, [q], now).(initialLoadComplete := true);
  }
}

=== FILE: payload.dfy ===
/**
 * The payload codec. The program compresses document text into a Base64
 * string and back; the engine never looks inside the encoded form. The
 * codec is therefore a parameter, and its only law is the round trip.
 */
module Payload {
  import opened Text

  /** A pair of transforms between plain text and the stored string. */
  datatype Codec = Codec(encode: Text -> string, decode: string -> Text)

  /** The codec's contract: decoding an encoded body gives the body back. */
  ghost predicate RoundTrips(c: Codec)
  {
    forall s: Text :: c.decode(c.encode(s)) == s
  }
}

=== FILE: reconcile.dfy ===
/**
 * The per-file step of a full sweep: look the candidate path up in the remote
 * store and take one of the reconciliation decisions.
 */
module Reconcile {
  import opened Wrappers
  import opened Text
  import opened Payload
  import opened Store

  /** The outcomes of one candidate's reconciliation. */
  datatype Action =
    | Upload           // no record: insert one
    | PropagateDelete  // the record is a tombstone: delete the local file
    | InSync           // stored fingerprint matches the local body
    | Tie              // fingerprints differ, timestamps equal: nothing is written
    | PullRemote       // remote is newer: overwrite the local file
    | PushLocal        // local is newer: overwrite the record's body

  /** The decision the engine takes for local file `f` given the lookup's
      result. An absent stored fingerprint never equals a computed one. */
  function Decide(found: Option<Doc>, f: LocalFile): (r: Action)
    ensures r == Upload <==> found.None?
    // a tombstone wins before any fingerprint or timestamp is compared
    ensures r == PropagateDelete <==> found.Some? && IsTombstone(found.value)
    // nothing is written exactly when the record is live and agrees with the file
    ensures (r == InSync || r == Tie) <==> found.Some? && Agrees(found.value, f)
    ensures r == PullRemote ==> found.Some? && found.value.lastEdited > f.mtime
    ensures r == PushLocal ==> found.Some? && found.value.lastEdited < f.mtime
    // an absent stored fingerprint never counts as a match
    ensures (found.Some? && found.value.checkSum.None? && !IsTombstone(found.value)
             && found.value.lastEdited != f.mtime) ==> r == PullRemote || r == PushLocal
  {
    match found
    case None => Upload
    case Some(d) =>
      if IsTombstone(d) then PropagateDelete
      else if d.checkSum == Some(StringChecksum(f.content)) then InSync
      else if d.lastEdited == f.mtime then Tie
      else if d.lastEdited > f.mtime then PullRemote
      else PushLocal
  }

  /** A record and a local file that a sweep leaves alone: the record is live
      and either its fingerprint or its timestamp matches the file. */
  predicate Agrees(d: Doc, f: LocalFile)
  {
    !IsTombstone(d) && (d.checkSum == Some(StringChecksum(f.content)) || d.lastEdited == f.mtime)
  }

  /** The record a sweep inserts for a path with no record: no `deleted` field. */
  function NewDoc(c: Codec, id: nat, p: Path, f: LocalFile, now: Time): (r: Doc)
    // the new record agrees with the file it was made from
    ensures r.path == p && Agrees(r, f)
    // it carries no `deleted` field, so the orphan query never returns it
    ensures r.deleted.None? && !IsOrphanCandidate(r) && !IsTombstone(r)
    ensures RoundTrips(c) ==> ChecksumsAgree(c, [r]) && c.decode(r.compressedContent) == f.content
  {
    Doc(id, p, c.encode(f.content), Some(StringChecksum(f.content)), now, None)
  }

  /** The local file a pull writes: the decoded body, stamped with the
      record's `lastEdited`. */
  function Pulled(c: Codec, d: Doc): LocalFile
  {
    LocalFile(c.decode(d.compressedContent), d.lastEdited)
  }

  /** The record after the local-wins update as the program writes it: the
      fingerprint is sent under a misspelled key, so `checkSum` keeps its
      old value. */
  function Pushed(c: Codec, d: Doc, f: LocalFile): (r: Doc)
    ensures r.compressedContent == c.encode(f.content) && r.lastEdited == f.mtime
    ensures r.checkSum == d.checkSum
    ensures r.id == d.id && r.path == d.path && r.deleted == d.deleted
  {
    d.(compressedContent := c.encode(f.content), lastEdited := f.mtime)
  }

  /** Reconcile the local file at candidate path `p` with the remote store. */
  function ReconcileFile(c: Codec, s: Session, p: Path, now: Time): (r: Session)
    requires p in s.local
    // the session flags are never touched by the per-file step
    ensures r.validUri == s.validUri && r.initialLoadComplete == s.initialLoadComplete
    // no local file other than `p` is created, removed or changed
    ensures forall q :: q in r.local && q != p ==> q in s.local && r.local[q] == s.local[q]
    ensures forall q :: q in s.local && q != p ==> q in r.local
    // the remote store only grows, and no record's id, path or flag changes
    ensures |s.remote| <= |r.remote| <= |s.remote| + 1
    ensures forall j :: 0 <= j < |s.remote| ==>
      r.remote[j].id == s.remote[j].id && r.remote[j].path == s.remote[j].path
      && r.remote[j].deleted == s.remote[j].deleted
    ensures forall j :: 0 <= j < |s.remote| && s.remote[j].path != p ==> r.remote[j] == s.remote[j]
    // no record: exactly one new record is inserted, the local tree is unchanged
    ensures FindOne(s.remote, p).None? ==>
      && r.local == s.local
      && r.remote == s.remote + [Doc(|s.remote|, p, c.encode(s.local[p].content),
                                     Some(StringChecksum(s.local[p].content)), now, None)]
    // a tombstone: the local file is removed, the remote store is unchanged
    ensures FindOne(s.remote, p).Some? && IsTombstone(s.remote[FindOne(s.remote, p).value]) ==>
      r.remote == s.remote && r.local == s.local - {p}
    // fingerprint or timestamp agree: neither side changes
    ensures FindOne(s.remote, p).Some? && Agrees(s.remote[FindOne(s.remote, p).value], s.local[p]) ==>
      r == s
    // remote newer: the local file takes the decoded remote body and timestamp
    ensures FindOne(s.remote, p).Some? ==>
      var d := s.remote[FindOne(s.remote, p).value];
      !IsTombstone(d) && !Agrees(d, s.local[p]) && d.lastEdited > s.local[p].mtime ==>
        r.remote == s.remote
        && r.local == s.local[p := LocalFile(c.decode(d.compressedContent), d.lastEdited)]
    // local newer: only the body and timestamp of the found record change
    ensures FindOne(s.remote, p).Some? ==>
      var i := FindOne(s.remote, p).value;
      var d := s.remote[i];
      !IsTombstone(d) && !Agrees(d, s.local[p]) && d.lastEdited < s.local[p].mtime ==>
        && r.local == s.local
        && |r.remote| == |s.remote|
        && (forall j :: 0 <= j < |s.remote| && j != i ==> r.remote[j] == s.remote[j])
        && r.remote[i].compressedContent == c.encode(s.local[p].content)
        && r.remote[i].lastEdited == s.local[p].mtime
        && r.remote[i].checkSum == d.checkSum
  {
    var f := s.local[p];
    match FindOne(s.remote, p)
    case None => s.(remote := s.remote + [NewDoc(c, |s.remote|, p, f, now)])
    case Some(i) =>
      var d := s.remote[i];
      match Decide(Some(d), f)
      case PropagateDelete => s.(local := s.local - {p})
      case PullRemote => s.(local := s.local[p := Pulled(c, d)])
      case PushLocal => s.(remote := s.remote[i := Pushed(c, d, f)])
      case _ => s
  }

  /** After its own reconciliation, a path is settled: it is gone locally, or
      its record is live and agrees with the local file. */
  predicate Settled(s: Session, p: Path)
  {
    p in s.local ==>
      match FindOne(s.remote, p)
      case None => false
      case Some(i) => Agrees(s.remote[i], s.local[p])
  }

  /** Every branch of the per-file step leaves the path settled. */
  lemma ReconcileSettles(c: Codec, s: Session, p: Path, now: Time)
    requires p in s.local
    ensures Settled(ReconcileFile(c, s, p, now), p)
  {
    var f := s.local[p];
    match FindOne(s.remote, p)
    case None =>
      FindOneAppend(s.remote, NewDoc(c, |s.remote|, p, f, now), p);
    case Some(i) =>
      var d := s.remote[i];
      if !IsTombstone(d) && !Agrees(d, f) && d.lastEdited < f.mtime {
        FindOneReplace(s.remote, i, Pushed(c, d, f), p);
      }
  }

  /** A second reconciliation of the same path writes nothing. */
  lemma ReconcileIdempotent(c: Codec, s: Session, p: Path, now: Time, later: Time)
    requires p in s.local
    ensures var r := ReconcileFile(c, s, p, now);
      p in r.local ==> ReconcileFile(c, r, p, later) == r
  {
    ReconcileSettles(c, s, p, now);
  }

  /** Reconciling one path keeps every other settled path settled. */
  lemma ReconcileKeepsOthersSettled(c: Codec, s: Session, p: Path, q: Path, now: Time)
    requires p in s.local && q != p
    requires Settled(s, q)
    ensures Settled(ReconcileFile(c, s, p, now), q)
  {
    var f := s.local[p];
    match FindOne(s.remote, p)
    case None =>
      FindOneAppend(s.remote, NewDoc(c, |s.remote|, p, f, now), q);
    case Some(i) =>
      var d := s.remote[i];
      if !IsTombstone(d) && !Agrees(d, f) && d.lastEdited < f.mtime {
        FindOneReplace(s.remote, i, Pushed(c, d, f), q);
      }
  }

  /** The per-file step keeps ids equal to insertion order, and keeps paths
      unique: it only inserts for a path that has no record. */
  lemma ReconcilePreservesShape(c: Codec, s: Session, p: Path, now: Time)
    requires p in s.local
    requires IdsAreIndices(s.remote) && UniquePaths(s.remote)
    ensures var r := ReconcileFile(c, s, p, now);
      IdsAreIndices(r.remote) && UniquePaths(r.remote)
  {
  }

  /** The fingerprint's blind spot seen from the sweep: an edit appending a
      code unit that is a multiple of 256 to a file in sync is never uploaded. */
  lemma UndetectedEdit(c: Codec, s: Session, p: Path, u: CodeUnit, mtime: Time, now: Time)
    requires p in s.local && u % 256 == 0
    requires FindOne(s.remote, p).Some?
    requires var d := s.remote[FindOne(s.remote, p).value];
      !IsTombstone(d) && d.checkSum == Some(StringChecksum(s.local[p].content))
    ensures var edited := s.(local := s.local[p := LocalFile(s.local[p].content + [u], mtime)]);
      edited.local[p].content != s.local[p].content
      && ReconcileFile(c, edited, p, now) == edited
  {
    ChecksumBlindToMultiplesOf256(s.local[p].content, u);
  }

  /** The local-wins update as evidently intended: the fingerprint is
      refreshed together with the body. */
  function PushIntended(c: Codec, d: Doc, f: LocalFile): (r: Doc)
    ensures r.compressedContent == c.encode(f.content) && r.lastEdited == f.mtime
    ensures r.checkSum == Some(StringChecksum(f.content))
    ensures RoundTrips(c) ==> ChecksumsAgree(c, [r])
    ensures r.id == d.id && r.path == d.path && r.deleted == d.deleted
  {
    d.(compressedContent := c.encode(f.content), lastEdited := f.mtime,
       checkSum := Some(StringChecksum(f.content)))
  }

  /** As written, device A's upload leaves the old fingerprint in the record.
      Device B, still holding the body that fingerprint describes, then sees
      "in sync" and never receives A's newer body. */
  lemma StaleChecksumHidesUpdate(c: Codec, sA: Session, sB: Session, p: Path, now: Time)
    requires RoundTrips(c)
    requires p in sA.local && p in sB.local && sA.remote == sB.remote
    requires FindOne(sA.remote, p).Some?
    requires var d := sA.remote[FindOne(sA.remote, p).value];
      && !IsTombstone(d)
      && d.checkSum == Some(StringChecksum(sB.local[p].content))
      && StringChecksum(sA.local[p].content) != StringChecksum(sB.local[p].content)
      && d.lastEdited < sA.local[p].mtime
      && sB.local[p].mtime < sA.local[p].mtime
    ensures var i := FindOne(sA.remote, p).value;
      var rA := ReconcileFile(c, sA, p, now);
      var sB' := sB.(remote := rA.remote);
      && c.decode(rA.remote[i].compressedContent) == sA.local[p].content
      && sA.local[p].content != sB.local[p].content
      && !ChecksumsAgree(c, rA.remote)
      && ReconcileFile(c, sB', p, now) == sB'
  {
    var i := FindOne(sA.remote, p).value;
    var d := sA.remote[i];
    var rA := ReconcileFile(c, sA, p, now);
    FindOneReplace(sA.remote, i, rA.remote[i], p);
    assert rA.remote[i].checkSum.Some?;
  }

  /** With the intended update, device B's next sweep pulls A's body. */
  lemma IntendedPushPropagates(c: Codec, sA: Session, sB: Session, p: Path, now: Time)
    requires RoundTrips(c)
    requires p in sA.local && p in sB.local && sA.remote == sB.remote
    requires FindOne(sA.remote, p).Some?
    requires var d := sA.remote[FindOne(sA.remote, p).value];
      && !IsTombstone(d)
      && StringChecksum(sA.local[p].content) != StringChecksum(sB.local[p].content)
      && d.lastEdited < sA.local[p].mtime
      && sB.local[p].mtime < sA.local[p].mtime
    ensures var i := FindOne(sA.remote, p).value;
      var remote' := sA.remote[i := PushIntended(c, sA.remote[i], sA.local[p])];
      var rB := ReconcileFile(c, sB.(remote := remote'), p, now);
      rB.remote == remote' && p in rB.local && rB.local[p] == sA.local[p]
  {
    var i := FindOne(sA.remote, p).value;
    FindOneReplace(sA.remote, i, PushIntended(c, sA.remote[i], sA.local[p]), p);
  }

  /** The intended update keeps every stored fingerprint faithful to its body. */
  lemma IntendedPushKeepsChecksumsAgree(c: Codec, remote: Remote, i: nat, f: LocalFile)
    requires RoundTrips(c) && ChecksumsAgree(c, remote)
    requires i < |remote|
    ensures ChecksumsAgree(c, remote[i := PushIntended(c, remote[i], f)])
  {
    var r := PushIntended(c, remote[i], f);
    assert [r][0] == r;
  }
}

=== FILE: store.dfy ===
/**
 * The two stores the engine reconciles, and the engine's session flags.
 *
 * The remote store is the collection of document records in its natural
 * (insertion) order; a lookup by path returns the first record with that
 * path, as an unsorted `findOne` does. The local tree maps each path to the
 * file's body and modification time.
 */
module Store {
  import opened Wrappers
  import opened Text
  import opened Payload

  type Path = string

  /** Milliseconds since the epoch, as `Date.getTime()` reports them. */
  type Time = int

  /** A remote record. `checkSum` and `deleted` are optional fields: a record
      inserted by a sweep has no `deleted` field at all. */
  datatype Doc = Doc(
    id: nat,
    path: Path,
    compressedContent: string,
    checkSum: Option<int>,
    lastEdited: Time,
    deleted: Option<bool>)

  type Remote = seq<Doc>

  datatype LocalFile = LocalFile(content: Text, mtime: Time)

  type Local = map<Path, LocalFile>

  /** The engine's state: both stores, whether the connection string was
      accepted, and the one-way latch set by the first completed sweep. */
  datatype Session = Session(
    remote: Remote,
    local: Local,
    validUri: bool,
    initialLoadComplete: bool)

  /** A record is a tombstone when its `deleted` field is truthy. */
  predicate IsTombstone(d: Doc)
  {
    d.deleted == Some(true)
  }

  /** A record matched by the `{deleted: false}` query: the flag must be
      present and false; a missing flag does not match. */
  predicate IsOrphanCandidate(d: Doc)
  {
    d.deleted == Some(false)
  }

  /** The first record at or after index `k` whose path is `p`. */
  function FindFrom(remote: Remote, p: Path, k: nat): (r: Option<nat>)
    requires k <= |remote|
    ensures r.Some? ==> k <= r.value < |remote| && remote[r.value].path == p
    ensures r.Some? ==> forall j :: k <= j < r.value ==> remote[j].path != p
    ensures r.None? ==> forall j :: k <= j < |remote| ==> remote[j].path != p
    decreases |remote| - k
  {
    if k == |remote| then None
    else if remote[k].path == p then Some(k)
    else FindFrom(remote, p, k + 1)
  }

  /** `findOne({path: p})`: the index of the first record with path `p`.
      Tombstones are not filtered out. */
  function FindOne(remote: Remote, p: Path): (r: Option<nat>)
    ensures r.Some? ==> r.value < |remote| && remote[r.value].path == p
    ensures r.Some? ==> forall j :: 0 <= j < r.value ==> remote[j].path != p
    ensures r.None? <==> forall j :: 0 <= j < |remote| ==> remote[j].path != p
  {
    FindFrom(remote, p, 0)
  }

  /** Record ids are assigned in insertion order, so the record with id `i`
      sits at index `i` and an update by id is an update at that index. */
  predicate IdsAreIndices(remote: Remote)
  {
    forall j :: 0 <= j < |remote| ==> remote[j].id == j
  }

  /** No two records share a path: the store then behaves as a map from path
      to record. */
  predicate UniquePaths(remote: Remote)
  {
    forall i, j :: 0 <= i < j < |remote| ==> remote[i].path != remote[j].path
  }

  /** Whether each record's fingerprint is that of the body it stores. */
  ghost predicate ChecksumsAgree(c: Codec, remote: Remote)
  {
    forall j :: 0 <= j < |remote| && remote[j].checkSum.Some? ==>
      remote[j].checkSum.value == StringChecksum(c.decode(remote[j].compressedContent))
  }

  /** When paths are unique, the lookup finds the one record with the path. */
  lemma FindOneUnique(remote: Remote, i: nat)
    requires UniquePaths(remote)
    requires i < |remote|
    ensures FindOne(remote, remote[i].path) == Some(i)
  {
  }

  /** The lookup only depends on which indices carry the path: two stores
      that agree on that (and the longer one has no extra match) answer alike. */
  lemma FindOneSameMatches(a: Remote, b: Remote, p: Path)
    requires |a| <= |b|
    requires forall j :: 0 <= j < |a| ==> (a[j].path == p <==> b[j].path == p)
    requires forall j :: |a| <= j < |b| ==> b[j].path != p
    ensures FindOne(a, p) == FindOne(b, p)
  {
  }

  /** Appending a record to the store. */
  lemma FindOneAppend(remote: Remote, d: Doc, p: Path)
    ensures FindOne(remote, p).Some? ==> FindOne(remote + [d], p) == FindOne(remote, p)
    ensures FindOne(remote, p).None? && d.path == p ==> FindOne(remote + [d], p) == Some(|remote|)
    ensures FindOne(remote, p).None? && d.path != p ==> FindOne(remote + [d], p).None?
  {
    var b := remote + [d];
    assert forall j :: 0 <= j < |remote| ==> b[j] == remote[j];
    assert b[|remote|] == d;
  }

  /** Replacing one record: lookups of paths the old and new record do not
      both carry are unaffected. */
  lemma FindOneReplace(remote: Remote, i: nat, d: Doc, p: Path)
    requires i < |remote|
    requires (remote[i].path == p) == (d.path == p)
    ensures FindOne(remote[i := d], p) == FindOne(remote, p)
  {
    FindOneSameMatches(remote, remote[i := d], p);
  }
}

=== FILE: sweep.dfy ===
/**
 * The full sweep (`triggerSync`): capture the candidate list, pull orphaned
 * remote records, reconcile every candidate in turn, then set the
 * initial-load latch. Every local write takes effect at once.
 */
module Sweep {
  import opened Wrappers
  import opened Payload
  import opened Store
  import opened Reconcile

  /** Record `j` is the first record from index `k` on that the orphan query
      returns with path `q`. */
  predicate FirstOrphanAt(remote: Remote, k: nat, j: nat, q: Path)
  {
    && k <= j < |remote|
    && IsOrphanCandidate(remote[j]) && remote[j].path == q
    && forall m :: k <= m < j ==> !(IsOrphanCandidate(remote[m]) && remote[m].path == q)
  }

  /** Walk the query's results from index `k` on, creating a local file for
      each record whose path is absent locally. */
  function PullFrom(c: Codec, remote: Remote, local: Local, k: nat): (r: Local)
    requires k <= |remote|
    ensures forall q :: q in local ==> q in r && r[q] == local[q]
    ensures forall j :: k <= j < |remote| && IsOrphanCandidate(remote[j]) ==> remote[j].path in r
    ensures forall q :: q in r && q !in local ==>
      exists j: nat :: FirstOrphanAt(remote, k, j, q) && r[q] == Pulled(c, remote[j])
    decreases |remote| - k
  {
    if k == |remote| then local
    else
      var d := remote[k];
      var local' := if IsOrphanCandidate(d) && d.path !in local then local[d.path := Pulled(c, d)] else local;
      var r := PullFrom(c, remote, local', k + 1);
      assert forall q :: q in r && q !in local ==>
        exists j: nat :: FirstOrphanAt(remote, k, j, q) && r[q] == Pulled(c, remote[j])
      by {
        forall q | q in r && q !in local
          ensures exists j: nat :: FirstOrphanAt(remote, k, j, q) && r[q] == Pulled(c, remote[j])
        {
          if q in local' {
            assert FirstOrphanAt(remote, k, k, q);
          } else {
            var j: nat :| FirstOrphanAt(remote, k + 1, j, q) && r[q] == Pulled(c, remote[j]);
            assert FirstOrphanAt(remote, k, j, q);
          }
        }
      }
      r
  }

  /** The orphan pull: every record whose `deleted` flag is explicitly false
      and whose path is absent locally becomes a local file holding the
      decoded body, stamped with the record's `lastEdited`. Existing local
      files are never touched. */
  function PullOrphans(c: Codec, remote: Remote, local: Local): (r: Local)
    ensures forall q :: q in local ==> q in r && r[q] == local[q]
    ensures forall j :: 0 <= j < |remote| && IsOrphanCandidate(remote[j]) ==> remote[j].path in r
    ensures forall q :: q in r && q !in local ==>
      exists j: nat :: FirstOrphanAt(remote, 0, j, q) && r[q] == Pulled(c, remote[j])
  {
    PullFrom(c, remote, local, 0)
  }

  /** A candidate list as the host lists it: distinct paths of existing files. */
  predicate ValidCandidates(local: Local, cands: seq<Path>)
  {
    && (forall k :: 0 <= k < |cands| ==> cands[k] in local)
    && (forall k, m :: 0 <= k < m < |cands| ==> cands[k] != cands[m])
  }

  /** Reconcile the candidates one after another. */
  function ReconcileAll(c: Codec, s: Session, cands: seq<Path>, now: Time): (r: Session)
    requires ValidCandidates(s.local, cands)
    ensures r.validUri == s.validUri && r.initialLoadComplete == s.initialLoadComplete
    ensures forall q :: q in r.local ==> q in s.local
    ensures forall q :: q in s.local && q !in cands ==> q in r.local && r.local[q] == s.local[q]
    ensures |s.remote| <= |r.remote|
    ensures forall j :: 0 <= j < |s.remote| ==>
      r.remote[j].id == s.remote[j].id && r.remote[j].path == s.remote[j].path
      && r.remote[j].deleted == s.remote[j].deleted
    ensures forall j :: 0 <= j < |s.remote| && s.remote[j].path !in cands ==> r.remote[j] == s.remote[j]
    ensures forall j :: |s.remote| <= j < |r.remote| ==>
      r.remote[j].path in cands && r.remote[j].deleted == None && r.remote[j].lastEdited == now
    decreases |cands|
  {
    if |cands| == 0 then s
    else
      var s' := ReconcileFile(c, s, cands[0], now);
      assert ValidCandidates(s'.local, cands[1..]) by {
        forall k | 0 <= k < |cands[1..]|
          ensures cands[1..][k] in s'.local
        {
          assert cands[1..][k] == cands[k + 1];
        }
      }
      ReconcileAll(c, s', cands[1..], now)
  }

  /** The candidates captured at the start of a sweep: every file before the
      first completed sweep, only the tracked (markdown) files afterwards. */
  function Candidates(s: Session, allFiles: seq<Path>, markdownFiles: seq<Path>): (r: seq<Path>)
    ensures !s.initialLoadComplete ==> r == allFiles
    ensures s.initialLoadComplete ==> r == markdownFiles
  {
    if s.initialLoadComplete then markdownFiles else allFiles
  }

  /** One full sweep. Nothing happens when the connection string was rejected. */
  function TriggerSync(c: Codec, s: Session, allFiles: seq<Path>, markdownFiles: seq<Path>, now: Time): (r: Session)
    requires s.validUri ==> ValidCandidates(s.local, Candidates(s, allFiles, markdownFiles))
    ensures !s.validUri ==> r == s
    ensures r.validUri == s.validUri
    // the latch: set by a sweep that runs, never cleared
    ensures r.initialLoadComplete == (s.initialLoadComplete || s.validUri)
    // a local file that is not a candidate keeps its body and timestamp
    ensures s.validUri ==> forall q :: q in s.local && q !in Candidates(s, allFiles, markdownFiles) ==>
      q in r.local && r.local[q] == s.local[q]
    // a file that appears was pulled from a record the orphan query returned,
    // and is not re-examined in the same sweep
    ensures forall q :: q in r.local && q !in s.local ==>
      exists j: nat :: FirstOrphanAt(s.remote, 0, j, q) && r.local[q] == Pulled(c, s.remote[j])
    // records at non-candidate paths are untouched; new records are inserts
    ensures |s.remote| <= |r.remote|
    ensures s.validUri ==> forall j :: 0 <= j < |s.remote| && s.remote[j].path !in Candidates(s, allFiles, markdownFiles) ==>
      r.remote[j] == s.remote[j]
    ensures forall j :: |s.remote| <= j < |r.remote| ==>
      r.remote[j].deleted == None && r.remote[j].lastEdited == now
  {
    if !s.validUri then s
    else
      var cands := Candidates(s, allFiles, markdownFiles);
      var pulled := s.(local := PullOrphans(c, s.remote, s.local));
      var reconciled := ReconcileAll(c, pulled, cands, now);
      reconciled.(initialLoadComplete := true)
  }

  /** Every record the orphan query returns has a local file. */
  predicate OrphansPresent(s: Session)
  {
    forall j :: 0 <= j < |s.remote| && IsOrphanCandidate(s.remote[j]) ==> s.remote[j].path in s.local
  }

  /** Reconciling the candidates settles each of them and keeps every other
      settled path settled. */
  lemma {:induction false} ReconcileAllSettles(c: Codec, s: Session, cands: seq<Path>, now: Time)
    requires ValidCandidates(s.local, cands)
    ensures var r := ReconcileAll(c, s, cands, now);
      forall q :: q in cands ==> Settled(r, q)
    ensures var r := ReconcileAll(c, s, cands, now);
      forall q :: q !in cands && Settled(s, q) ==> Settled(r, q)
    decreases |cands|
  {
    if |cands| > 0 {
      var p := cands[0];
      var s' := ReconcileFile(c, s, p, now);
      var rest := cands[1..];
      assert ValidCandidates(s'.local, rest) by {
        forall k | 0 <= k < |rest|
          ensures rest[k] in s'.local
        {
          assert rest[k] == cands[k + 1];
        }
      }
      var r := ReconcileAll(c, s', rest, now);
      assert r == ReconcileAll(c, s, cands, now);
      ReconcileSettles(c, s, p, now);
      forall q | q != p && Settled(s, q)
        ensures Settled(s', q)
      {
        ReconcileKeepsOthersSettled(c, s, p, q, now);
      }
      ReconcileAllSettles(c, s', rest, now);
      assert p !in rest by {
        forall k | 0 <= k < |rest|
          ensures rest[k] != p
        {
          assert rest[k] == cands[k + 1];
        }
      }
      forall q | q in cands
        ensures Settled(r, q)
      {
        if q != p {
          var k :| 0 <= k < |cands| && cands[k] == q;
          assert rest[k - 1] == q;
        }
      }
    }
  }

  /** A sweep over settled candidates writes nothing. */
  lemma {:induction false} ReconcileAllSettledIsNoop(c: Codec, s: Session, cands: seq<Path>, now: Time)
    requires ValidCandidates(s.local, cands)
    requires forall k :: 0 <= k < |cands| ==> Settled(s, cands[k])
    ensures ReconcileAll(c, s, cands, now) == s
    decreases |cands|
  {
    if |cands| > 0 {
      assert Settled(s, cands[0]);
      assert ReconcileFile(c, s, cands[0], now) == s;
      var rest := cands[1..];
      forall k | 0 <= k < |rest|
        ensures rest[k] in s.local && Settled(s, rest[k])
      {
        assert rest[k] == cands[k + 1];
      }
      ReconcileAllSettledIsNoop(c, s, rest, now);
    }
  }

  /** Reconciling candidates never removes a file the orphan query would
      recreate, as long as paths are unique. */
  lemma {:induction false} ReconcileAllKeepsOrphansPresent(c: Codec, s: Session, cands: seq<Path>, now: Time)
    requires ValidCandidates(s.local, cands)
    requires UniquePaths(s.remote) && IdsAreIndices(s.remote)
    requires OrphansPresent(s)
    ensures var r := ReconcileAll(c, s, cands, now);
      OrphansPresent(r) && UniquePaths(r.remote) && IdsAreIndices(r.remote)
    decreases |cands|
  {
    if |cands| > 0 {
      var p := cands[0];
      var s' := ReconcileFile(c, s, p, now);
      ReconcilePreservesShape(c, s, p, now);
      forall j | 0 <= j < |s'.remote| && IsOrphanCandidate(s'.remote[j])
        ensures s'.remote[j].path in s'.local
      {
        if s.remote[j].path == p {
          FindOneUnique(s.remote, j);
        }
      }
      var rest := cands[1..];
      assert ValidCandidates(s'.local, rest) by {
        forall k | 0 <= k < |rest|
          ensures rest[k] in s'.local
        {
          assert rest[k] == cands[k + 1];
        }
      }
      ReconcileAllKeepsOrphansPresent(c, s', rest, now);
    }
  }

  /** With unique paths, a file the pull creates is settled at once: its
      timestamp is the record's `lastEdited`. */
  lemma PulledFilesSettled(c: Codec, s: Session, q: Path)
    requires UniquePaths(s.remote)
    requires q !in s.local
    ensures var p := s.(local := PullOrphans(c, s.remote, s.local));
      Settled(p, q)
  {
    var local' := PullOrphans(c, s.remote, s.local);
    if q in local' {
      var j: nat :| FirstOrphanAt(s.remote, 0, j, q) && local'[q] == Pulled(c, s.remote[j]);
      FindOneUnique(s.remote, j);
    }
  }


  /** Before the first completed sweep every file is a candidate. Given the
      listing of every file, the first sweep settles every file that existed
      when it started; with unique paths, the files it pulls are settled
      too, so the whole tree is in step. */
  lemma FirstSweepSettlesEveryFile(c: Codec, s: Session, allFiles: seq<Path>, markdownFiles: seq<Path>, now: Time)
    requires s.validUri && !s.initialLoadComplete
    requires ValidCandidates(s.local, allFiles)
    requires forall q :: q in s.local ==> q in allFiles
    ensures var r := TriggerSync(c, s, allFiles, markdownFiles, now);
      forall q :: q in s.local ==> Settled(r, q)
    ensures var r := TriggerSync(c, s, allFiles, markdownFiles, now);
      UniquePaths(s.remote) ==> forall q :: q in r.local ==> Settled(r, q)
  {
    var pulled := s.(local := PullOrphans(c, s.remote, s.local));
    var reconciled := ReconcileAll(c, pulled, allFiles, now);
    assert TriggerSync(c, s, allFiles, markdownFiles, now) == reconciled.(initialLoadComplete := true);
    ReconcileAllSettles(c, pulled, allFiles, now);
    if UniquePaths(s.remote) {
      forall q | q !in s.local
        ensures Settled(pulled, q)
      {
        PulledFilesSettled(c, s, q);
      }
    }
  }

  /** Once a sweep has run, the latch makes every later sweep list only the
      markdown files, whatever the host's listings are. */
  lemma LaterSweepsListMarkdown(c: Codec, s: Session, allFiles: seq<Path>, markdownFiles: seq<Path>, now: Time,
                                allFiles2: seq<Path>, markdownFiles2: seq<Path>)
    requires s.validUri
    requires ValidCandidates(s.local, Candidates(s, allFiles, markdownFiles))
    ensures Candidates(TriggerSync(c, s, allFiles, markdownFiles, now), allFiles2, markdownFiles2) == markdownFiles2
  {
  }

  /** The pull as evidently intended: the query returns every record that is
      not a tombstone, so a missing `deleted` flag counts as live. This is the
      as-written pull over the store with every missing flag read as false. */
  function PullLive(c: Codec, remote: Remote, local: Local): (r: Local)
    ensures forall q :: q in local ==> q in r && r[q] == local[q]
    ensures forall j :: 0 <= j < |remote| && !IsTombstone(remote[j]) ==> remote[j].path in r
    ensures forall q :: q in r && q !in local ==>
      exists j: nat :: j < |remote| && !IsTombstone(remote[j]) && remote[j].path == q && r[q] == Pulled(c, remote[j])
  {
    var live := seq(|remote|, j requires 0 <= j < |remote| => remote[j].(deleted := Some(IsTombstone(remote[j]))));
    var r := PullOrphans(c, live, local);
    assert forall j :: 0 <= j < |remote| ==> (IsOrphanCandidate(live[j]) <==> !IsTombstone(remote[j]));
    forall q | q in r && q !in local
      ensures exists j: nat :: j < |remote| && !IsTombstone(remote[j]) && remote[j].path == q && r[q] == Pulled(c, remote[j])
    {
      var j: nat :| FirstOrphanAt(live, 0, j, q) && r[q] == Pulled(c, live[j]);
      assert Pulled(c, live[j]) == Pulled(c, remote[j]);
    }
    r
  }

  /** As written: a file that a sweep uploads is never pulled by a peer that
      lacks it, because the inserted record carries no `deleted` flag and the
      query `{deleted: false}` does not match a missing flag. */
  lemma NewFileNeverPulled(c: Codec, s: Session, p: Path, now: Time, peer: Local)
    requires p in s.local && FindOne(s.remote, p) == None
    requires p !in peer
    ensures var r := ReconcileFile(c, s, p, now);
      && |r.remote| == |s.remote| + 1 && r.remote[|s.remote|].path == p
      && p !in PullOrphans(c, r.remote, peer)
  {
  }

  /** Corrected: with the intended query, the peer pulls the uploaded file,
      and under the round-trip law it receives exactly the uploaded body,
      stamped with the upload time. */
  lemma NewFileIntendedPulled(c: Codec, s: Session, p: Path, now: Time, peer: Local)
    requires p in s.local && FindOne(s.remote, p) == None
    ensures var r := ReconcileFile(c, s, p, now);
      p in PullLive(c, r.remote, peer)
    ensures var r := ReconcileFile(c, s, p, now);
      RoundTrips(c) && p !in peer ==> PullLive(c, r.remote, peer)[p] == LocalFile(s.local[p].content, now)
  {
    var r := ReconcileFile(c, s, p, now);
    var pulled := PullLive(c, r.remote, peer);
    assert !IsTombstone(r.remote[|s.remote|]);
    if p !in peer {
      var j: nat :| j < |r.remote| && !IsTombstone(r.remote[j]) && r.remote[j].path == p && pulled[p] == Pulled(c, r.remote[j]);
      assert j == |s.remote|;
    }
  }
  /** The pull adds nothing when every orphan already has a local file. */
  lemma PullOrphansNoop(c: Codec, s: Session)
    requires OrphansPresent(s)
    ensures PullOrphans(c, s.remote, s.local) == s.local
  {
    var local' := PullOrphans(c, s.remote, s.local);
    assert local'.Keys == s.local.Keys;
  }

  /** A sweep keeps ids in insertion order and paths unique, and leaves no
      record of the orphan query without a local file. */
  lemma SweepPreservesShape(c: Codec, s: Session, allFiles: seq<Path>, markdownFiles: seq<Path>, now: Time)
    requires s.validUri ==> ValidCandidates(s.local, Candidates(s, allFiles, markdownFiles))
    requires UniquePaths(s.remote) && IdsAreIndices(s.remote)
    ensures var r := TriggerSync(c, s, allFiles, markdownFiles, now);
      UniquePaths(r.remote) && IdsAreIndices(r.remote) && (s.validUri ==> OrphansPresent(r))
  {
    if s.validUri {
      var cands := Candidates(s, allFiles, markdownFiles);
      var pulled := s.(local := PullOrphans(c, s.remote, s.local));
      ReconcileAllKeepsOrphansPresent(c, pulled, cands, now);
    }
  }

  /** Idempotence: with unique paths, a second sweep right after a first one
      writes nothing, on either side, provided each of its candidates was a
      candidate of the first sweep or was pulled by it. */
  lemma SweepIdempotent(c: Codec, s: Session, allFiles: seq<Path>, markdownFiles: seq<Path>, now: Time,
                        allFiles2: seq<Path>, markdownFiles2: seq<Path>, now2: Time)
    requires s.validUri
    requires ValidCandidates(s.local, Candidates(s, allFiles, markdownFiles))
    requires UniquePaths(s.remote) && IdsAreIndices(s.remote)
    requires var s1 := TriggerSync(c, s, allFiles, markdownFiles, now);
      var cands2 := Candidates(s1, allFiles2, markdownFiles2);
      && ValidCandidates(s1.local, cands2)
      && forall k :: 0 <= k < |cands2| ==> cands2[k] in Candidates(s, allFiles, markdownFiles) || cands2[k] !in s.local
    ensures var s1 := TriggerSync(c, s, allFiles, markdownFiles, now);
      TriggerSync(c, s1, allFiles2, markdownFiles2, now2) == s1
  {
    var cands := Candidates(s, allFiles, markdownFiles);
    var pulled := s.(local := PullOrphans(c, s.remote, s.local));
    var r := ReconcileAll(c, pulled, cands, now);
    var s1 := r.(initialLoadComplete := true);
    assert s1 == TriggerSync(c, s, allFiles, markdownFiles, now);
    var cands2 := Candidates(s1, allFiles2, markdownFiles2);
    forall q | q in pulled.local && q !in s.local
      ensures Settled(pulled, q)
    {
      PulledFilesSettled(c, s, q);
    }
    ReconcileAllSettles(c, pulled, cands, now);
    ReconcileAllKeepsOrphansPresent(c, pulled, cands, now);
    PullOrphansNoop(c, s1);
    forall k | 0 <= k < |cands2|
      ensures Settled(s1, cands2[k])
    {
      var q := cands2[k];
      assert Settled(r, q);
    }
    ReconcileAllSettledIsNoop(c, s1, cands2, now2);
  }
}

=== FILE: text.dfy ===
/**
 * Document text and the content fingerprint.
 *
 * The program's strings are JavaScript strings: sequences of UTF-16 code
 * units, which `charCodeAt` reads one at a time. The fingerprint is the sum
 * of those code units reduced modulo 256.
 */
module Text {

  /** One UTF-16 code unit, the value `charCodeAt` returns. */
  type CodeUnit = c: int | 0 <= c < 0x1_0000

  /** The plain body of a document. */
  type Text = seq<CodeUnit>

  /** The sum of all code units of `s`, peeled from the right so that it
      follows a left-to-right accumulation loop. */
  function Sum(s: Text): nat
  {
    if |s| == 0 then 0 else Sum(s[..|s| - 1]) + s[|s| - 1]
  }

  /** The fingerprint: the sum of the code units modulo 256. */
  function StringChecksum(s: Text): (c: int)
    ensures 0 <= c < 256
    ensures |s| == 0 ==> c == 0
  {
    Sum(s) % 256
  }

  /** The accumulation loop of the program: add every code unit, then reduce. */
  method ComputeChecksum(str: Text) returns (checksum: int)
    ensures checksum == Sum(str) % 256
    ensures 0 <= checksum < 256
  {
    var acc: int := 0;
    var i := 0;
    while i < |str|
      invariant 0 <= i <= |str|
      invariant acc == Sum(str[..i])
    {
      assert str[..i + 1][..i] == str[..i];
      acc := acc + str[i];
      i := i + 1;
    }
    assert str[..|str|] == str;
    checksum := acc % 256;
  }

  /** The sum distributes over concatenation. */
  lemma {:induction false} SumAppend(a: Text, b: Text)
    ensures Sum(a + b) == Sum(a) + Sum(b)
    decreases |b|
  {
    if |b| == 0 {
      assert a + b == a;
    } else {
      var b' := b[..|b| - 1];
      assert (a + b)[..|a + b| - 1] == a + b';
      SumAppend(a, b');
    }
  }

  /** The fingerprint of a concatenation depends only on the parts' fingerprints. */
  lemma ChecksumAppend(a: Text, b: Text)
    ensures StringChecksum(a + b) == (StringChecksum(a) + StringChecksum(b)) % 256
  {
    SumAppend(a, b);
  }

  /** The fingerprint cannot see the order of the text: swapping two halves of
      a document leaves it unchanged, so such an edit is a collision. */
  lemma ChecksumIgnoresOrder(a: Text, b: Text)
    ensures StringChecksum(a + b) == StringChecksum(b + a)
  {
    SumAppend(a, b);
    SumAppend(b, a);
  }

  /** Appending a code unit that is a multiple of 256 (such as U+0100) leaves
      the fingerprint unchanged, although the text changed. */
  lemma ChecksumBlindToMultiplesOf256(s: Text, u: CodeUnit)
    requires u % 256 == 0
    ensures s + [u] != s
    ensures StringChecksum(s + [u]) == StringChecksum(s)
  {
    assert (s + [u])[..|s|] == s;
    assert |s + [u]| != |s|;
  }
}

=== FILE: wrappers.dfy ===
/** Optional values, used for the remote record's optional fields and for lookups. */
module Wrappers {

  /** `None` plays the part of a missing (undefined) field or an absent query result. */
  datatype Option<+T> = None | Some(value: T)
}
